=== FILE: README.md ===
# Final exam countdown, modelled in Dafny

The page lists a fixed registry of five exams. Each exam card re-evaluates its state once a second. Before the exam it shows a days/hours/minutes/seconds countdown to the start. During the exam window it shows an "in progress" banner, and after the window a "completed" banner.

This project models the logic behind that page:

- `Duration` models `calculateTimeLeft`: the remaining time to a target instant, or `None` (JavaScript `null`) when the target is not strictly in the future. The result is broken into days, hours, minutes and seconds and truncated to the second.
- `JsArith` writes the page's field formulas (`Math.floor`, `/` and JavaScript `%`) over exact reals. It proves they agree with the integer breakdown for every positive difference.
- `Status` models the body of each card's interval callback. It classifies `now` against the exam window as upcoming, running or finished, with the branches tried in the page's order.
- `Display` models which output `CountdownDisplay` picks from `timeLeft`, `isFinished` and `isRunning`, and how the card derives those flags from its status.
- `Registry` models the `EXAMS` list, with start and end as integer instants, and its well-formedness.
- `ExamCard` models a card's initial state, one tick, and the page of cards at one instant. It also holds the two findings below.

Instants are integer milliseconds. The current instant is always a parameter. `Wrappers` holds the `Option` type.

The registry's date strings carry no zone, so the host reads them as local time. `Registry.CivilInstant` turns each one into milliseconds with the days-from-civil algorithm at zone offset zero. `Registry.LemmaShiftPreserves` shows that a constant zone offset changes neither well-formedness nor ordering.

The model follows the code at three points worth noting:

- Status for a degenerate window. The code never rejects a window whose end is not after its start. `Status.Resolve` takes any `start` and `end`: with `start > end` a card is never running, and with `start == end` it is running for exactly one millisecond. "Upcoming" means `now < start && now <= end`; this equals `now < start` only when `start <= end` (`Status.LemmaUpcomingBeforeStart`).
- Monotonicity needs no precondition. The status rank never decreases as `now` grows, even without `start <= end`. "Finished" holds exactly when `now > end`, and "running or finished" holds exactly when `now >= start || now > end`. Each of these conditions stays true once it becomes true as `now` grows, and the rank counts how many of the two hold.
- A card's first state. A card whose exam has already started is evidently meant to open in the state a tick computes. The code creates every card as upcoming and only corrects it at the first tick (first finding below).

## Model

| member | source | states |
|---|---|---|
| Duration.CalculateTimeLeft | src/App.jsx:44-57 | `None` exactly when `target - now <= 0`, so a zero difference gives `None`; otherwise the result is the normalized breakdown of the difference and recomposes to it truncated to the second |
| Duration.Breakdown | src/App.jsx:51-56 | hours < 24, minutes < 60, seconds < 60, days unbounded; recomposing days, hours, minutes and seconds gives `diff - diff % 1000`, so the result is never rounded up |
| Duration.LemmaBreakdownUnique | src/App.jsx:51-56 | a normalized value covers `diff` to within the last second if and only if it is the page's breakdown of `diff` |
| Duration.LemmaBreakdownToMillis | src/App.jsx:51-56 | round trip: breaking down the milliseconds of a normalized value returns that value |
| Duration.LemmaCountdownMonotone | src/App.jsx:44-57 | for a fixed target, a later `now` never leaves more time on the countdown |
| JsArith.LemmaJsFieldsAgree | src/App.jsx:51-56 | for a positive difference, the four `Math.floor` expressions over real division and JavaScript `%` equal the integer fields of the breakdown |
| JsArith.JsDays | src/App.jsx:52 | `Math.floor` of the real quotient by a day equals the integer quotient for a non-negative difference |
| JsArith.JsHours | src/App.jsx:53 | `Math.floor` of the real quotient by an hour, JavaScript `%` 24, equals the integer hours modulo 24 for a non-negative difference |
| JsArith.JsMinutes | src/App.jsx:54 | `Math.floor` of the difference divided by 1000 then by 60, JavaScript `%` 60, equals the integer minutes modulo 60 for a non-negative difference |
| JsArith.JsSeconds | src/App.jsx:55 | `Math.floor` of the real quotient by a second, JavaScript `%` 60, equals the integer seconds modulo 60 for a non-negative difference |
| Status.Resolve | src/App.jsx:119-132 | finished iff `now > end`; running iff `start <= now <= end`; upcoming iff `now < start` and `now <= end`; a countdown is present iff upcoming, and it is the breakdown of `start - now` |
| Status.LemmaResolveMonotone | src/App.jsx:123-132 | for any window, if `now1 <= now2` then the status rank (upcoming < running < finished) at `now1` is at most the rank at `now2` |
| Status.LemmaUpcomingBeforeStart | src/App.jsx:123-132 | for a window with `start <= end`, upcoming holds exactly when `now < start` |
| Status.LemmaBoundaries | src/App.jsx:123-128 | `now == start` and `now == end` are both running; `end + 1` is finished with no countdown |
| Status.LemmaCountsToStart | src/App.jsx:129-131 | while upcoming, the countdown is the breakdown of `start - now` and does not depend on the end instant |
| Status.LemmaPastStartNeverUpcoming | src/App.jsx:123-128 | once `now >= start`, a tick never yields upcoming and never carries a countdown |
| Display.Select | src/App.jsx:70-89 | completed iff finished; in progress iff running and not finished; countdown of exactly `timeLeft` iff neither flag is set and `timeLeft` is present; nothing iff neither flag is set and `timeLeft` is absent |
| Display.OfSnapshot | src/App.jsx:170-174 | the completed banner iff the status is finished, the in-progress banner iff running; an upcoming card shows nothing iff it has no `timeLeft`, and a countdown shown is exactly the card's `timeLeft` |
| Display.LemmaResolvedNeverBlank | src/App.jsx:70-89 | fed by the resolver, the component never renders nothing, and its output matches the position of `now` against the window |
| Display.LemmaShownCountdown | src/App.jsx:91-110 | a countdown on screen is the breakdown of the time left until the start |
| Registry.Exams | src/App.jsx:5-41 | the five records in the page's order, CSC207, ICT200, MAT210, ITT320, CSC248; each is titled by its code and lasts exactly three hours |
| Registry.LemmaExamInstants | src/App.jsx:5-41 | the five registry windows as millisecond instants at zone offset zero |
| Registry.LemmaRegistryWellFormed | src/App.jsx:5-41 | every exam ends strictly after it starts, the codes used as list keys are pairwise distinct, and each window closes before the next one opens |
| Registry.LemmaShiftPreserves | src/App.jsx:120-121 | moving every instant by one zone offset changes neither well-formedness nor chronological order |
| Registry.LemmaEndsBeforeLaterStart | src/App.jsx:5-41 | in a chronological, well-formed registry every window closes before any later window opens |
| Registry.LemmaAtMostOneRunning | src/App.jsx:5-41 | in such a registry, while one exam is running every later exam is still upcoming |
| Registry.LemmaTwoDaysBefore | src/App.jsx:44-57 | two days before the first exam's start the countdown reads exactly 2 days, 0 hours, 0 minutes, 0 seconds |
| ExamCard.MountAsWritten | src/App.jsx:114-115 | a new card is upcoming whatever the clock says, has no countdown exactly when its start has passed, and otherwise counts down to its start |
| ExamCard.LemmaMountBlankAfterStart | src/App.jsx:114-115 | a card mounted at or after its exam's start renders nothing until its first tick |
| ExamCard.LemmaMountAtFirstStart | src/App.jsx:114-115 | the first exam mounted at its start instant: nothing as written, the in-progress banner once resolved |
| ExamCard.Mount | src/App.jsx:114-115 | the resolved initial state is exactly what a single-reading tick at the mount instant writes: finished iff past the end, running iff inside the window, upcoming iff before the start and not past the end; it never renders nothing and equals the as-written state whenever the exam is still ahead |
| ExamCard.TickAsWritten | src/App.jsx:119-132 | finished iff the first reading is past the end, running iff it is inside the window; a countdown is present iff the first reading is before the start (and not past the end) and the second reading is also before the start, and it is then the breakdown of the start minus the second reading |
| ExamCard.LemmaTickSingleReading | src/App.jsx:119-132 | with both clock readings equal, a tick is exactly the resolver |
| ExamCard.LemmaTickBlankAcrossStart | src/App.jsx:119-131 | readings on either side of the start leave the card upcoming with no countdown, so it renders nothing, where a single reading gives a countdown |
| ExamCard.LemmaTickAcrossFirstStart | src/App.jsx:119-131 | the first exam read one millisecond before and then at its start renders nothing |
| ExamCard.Board | src/App.jsx:207-209 | the page once every card has ticked with one clock reading: one output per registry record, none of them empty; a card is in progress iff `now` is inside its window, completed iff past its end, and shows a countdown iff before its start (and not past its end), that countdown being the breakdown of the time left to its start |
| ExamCard.LemmaOneInProgress | src/App.jsx:207-209 | on the page built from the registry, at most one card is in progress at any instant |

## Left out

- `formatDate` and `formatTime` (src/App.jsx:59-66) are left out. They delegate to the host's locale formatting, which cannot be specified here.
- JSX markup, class strings and icons are left out. The model keeps only which of the four outputs is chosen.
- React state and timers are left out: `useState`, `useEffect`, `setInterval`, `clearInterval` and the `mounted` gate of `App`. The model covers only the values a card starts with and the state each tick writes. Ticks are independent pure evaluations, so their timing is not modelled.
- Date parsing is left out. `new Date(str)` reads the zone-less strings in the host's local zone. The model fixes offset zero and shows that any constant offset preserves the registry's properties. A zone change inside an exam window, as at a daylight-saving switch, is not modelled.
- ExamCard.Board describes the page only once every card has ticked with a single clock reading. It does not cover the first second after a card mounts (first finding), nor a tick whose two clock readings straddle a start (second finding); in both cases the page as written can show an empty card.
- IEEE-754 rounding is left out. `JsArith` uses exact reals, and millisecond differences are integers well inside the exactly representable range.
- An invalid date string (NaN) is left out. The registry's strings are fixed and all valid.
- Repeating a call with the same `now` gives the same result trivially, because every operation is a pure function. No separate lemma states this.

## Findings

| source | as written | input that shows it | evidently intended | confidence | as-written member | corrected member |
|---|---|---|---|---|---|---|
| src/App.jsx:114-115 | a card starts as `upcoming` with `timeLeft = calculateTimeLeft(start)`, whatever the clock says | mount the CSC207 card at its start instant: the status is upcoming and `timeLeft` is `null`, so `CountdownDisplay` renders nothing until the first tick one second later | the card starts in the state a tick would compute (here the in-progress banner) | not executed; medium | ExamCard.MountAsWritten (shown by ExamCard.LemmaMountAtFirstStart) | ExamCard.Mount |
| src/App.jsx:119 | the status compares one clock reading (line 119), and the countdown uses a second reading taken inside `calculateTimeLeft` (line 45) | first reading one millisecond before CSC207's start, second reading at the start: upcoming with `null` `timeLeft`, so the card renders nothing for one tick | status and countdown come from the same instant | not executed; low | ExamCard.TickAsWritten (shown by ExamCard.LemmaTickAcrossFirstStart) | Status.Resolve (agreement shown by ExamCard.LemmaTickSingleReading) |

=== FILE: display.dfy ===
/** Which of its outputs the `CountdownDisplay` component shows, given the
    card's `timeLeft` and the two flags derived from its status. */
module Display {

  import opened Wrappers
  import opened Duration
  import opened Status

  /** The four outcomes: the completed banner, the in-progress banner, the
      four-field countdown, or nothing at all (the component returns `null`). */
  datatype DisplayKind = Completed | InProgress | Countdown(t: TimeLeft) | Blank

  /** The component's checks in its fixed order: finished wins over running,
      running wins over the countdown, and a missing `timeLeft` with neither
      flag set renders nothing. */
  function Select(timeLeft: Option<TimeLeft>, isFinished: bool, isRunning: bool): (d: DisplayKind)
    ensures d == Completed <==> isFinished
    ensures d == InProgress <==> !isFinished && isRunning
    ensures d.Countdown? <==> !isFinished && !isRunning && timeLeft.Some?
    ensures d.Countdown? ==> timeLeft == Some(d.t)
    ensures d == Blank <==> !isFinished && !isRunning && timeLeft.None?
  {
    if isFinished then Completed
    else if isRunning then InProgress
    else if timeLeft.None? then Blank
    else Countdown(timeLeft.value)
  }

  /** How an exam card feeds its state to the component: `isFinished` and
      `isRunning` are comparisons of the status against the two names. */
  function OfSnapshot(s: Snapshot): (d: DisplayKind)
    ensures d == Completed <==> s.status == Finished
    ensures d == InProgress <==> s.status == Running
    ensures d.Countdown? || d == Blank <==> s.status == Upcoming
    ensures s.status == Upcoming ==> (d == Blank <==> s.timeLeft.None?)
    ensures d.Countdown? ==> s.timeLeft == Some(d.t)
  {
    Select(s.timeLeft, s.status == Finished, s.status == Running)
  }

  /** Driven by the resolver, the component always shows something, and
      what it shows matches the position of `now` against the window. */
  lemma LemmaResolvedNeverBlank(now: int, start: int, end: int)
    ensures OfSnapshot(Resolve(now, start, end)) != Blank
    ensures OfSnapshot(Resolve(now, start, end)) == Completed <==> now > end
    ensures OfSnapshot(Resolve(now, start, end)) == InProgress <==> start <= now <= end
    ensures OfSnapshot(Resolve(now, start, end)).Countdown? <==> now < start && now <= end
  {
  }

  /** A countdown on screen is the breakdown of the time left until the start. */
  lemma LemmaShownCountdown(now: int, start: int, end: int)
    requires OfSnapshot(Resolve(now, start, end)).Countdown?
    ensures IsBreakdownOf(OfSnapshot(Resolve(now, start, end)).t, start - now)
  {
  }
}

=== FILE: duration.dfy ===
/** The duration calculator of the countdown page (`calculateTimeLeft`):
    the time still to wait until a target instant, broken into days, hours,
    minutes and seconds, truncated to the whole second. Instants are
    integer milliseconds and the current instant is a parameter. */
module Duration {

  import opened Wrappers

  const MsPerSecond: nat := 1000
  const MsPerMinute: nat := 60 * MsPerSecond
  const MsPerHour: nat := 60 * MsPerMinute
  const MsPerDay: nat := 24 * MsPerHour

  /** The `{days, hours, minutes, seconds}` object the page renders. */
  datatype TimeLeft = TimeLeft(days: nat, hours: nat, minutes: nat, seconds: nat)

  /** Every field below days is within its clock range; days is unbounded. */
  predicate Normalized(t: TimeLeft) {
    t.hours < 24 && t.minutes < 60 && t.seconds < 60
  }

  /** The number of milliseconds a breakdown stands for. */
  function ToMillis(t: TimeLeft): nat {
    t.days * MsPerDay + t.hours * MsPerHour + t.minutes * MsPerMinute + t.seconds * MsPerSecond
  }

  /** Independent description of a correct breakdown of `diff`: normalized,
      and covering `diff` to within the last, incomplete second. */
  predicate IsBreakdownOf(t: TimeLeft, diff: nat) {
    Normalized(t) && ToMillis(t) <= diff < ToMillis(t) + MsPerSecond
  }

  /** The four fields as the page's JavaScript computes them from a positive difference:
      whole days, then the whole hours, minutes and seconds counted modulo
      their clock ranges. */
  function Breakdown(diff: nat): (t: TimeLeft)
    ensures Normalized(t)
    ensures ToMillis(t) == diff - diff % MsPerSecond
  {
    LemmaBreakdownBySeconds(diff);
    LemmaRecompose(diff / MsPerSecond);
    TimeLeft(diff / MsPerDay, (diff / MsPerHour) % 24, (diff / MsPerMinute) % 60, (diff / MsPerSecond) % 60)
  }

  /** `calculateTimeLeft(target)` evaluated at instant `now`: `None` (JavaScript's
      `null`) when the target is not strictly in the future,
      otherwise the breakdown of the remaining milliseconds. */
  function CalculateTimeLeft(target: int, now: int): (r: Option<TimeLeft>)
    ensures r.None? <==> target - now <= 0
    ensures r.Some? ==> IsBreakdownOf(r.value, target - now)
    ensures r.Some? ==> ToMillis(r.value) == (target - now) - (target - now) % MsPerSecond
  {
    var difference := target - now;
    if difference <= 0 then None else Some(Breakdown(difference))
  }

  // ---------------------------------------------------------------------
  // Integer division facts (Dafny's `/` and `%` on naturals)

  /** The four fields, rewritten as successive divisions of the whole
      seconds `diff / 1000`. */
  lemma LemmaBreakdownBySeconds(diff: nat)
    ensures diff / MsPerMinute == diff / MsPerSecond / 60
    ensures diff / MsPerHour == diff / MsPerSecond / 60 / 60
    ensures diff / MsPerDay == diff / MsPerSecond / 60 / 60 / 24
  {
  }

  /** Recomposing the clock fields of a count of seconds gives the count back. */
  lemma LemmaRecompose(s: nat)
    ensures s == (s / 60 / 60 / 24) * 86400 + (s / 60 / 60 % 24) * 3600 + (s / 60 % 60) * 60 + s % 60
  {
  }

  // ---------------------------------------------------------------------
  // Properties of the breakdown

  /** `Breakdown` is the one and only correct breakdown:
      a normalized value covers `diff` to within a second exactly when it
      is what `Breakdown` computes. */
  lemma {:induction false} LemmaBreakdownUnique(t: TimeLeft, diff: nat)
    ensures IsBreakdownOf(t, diff) <==> t == Breakdown(diff)
  {
    if IsBreakdownOf(t, diff) {
      var h := t.hours + 24 * t.days;
      var m := t.minutes + 60 * h;
      var sec := t.seconds + 60 * m;
      assert ToMillis(t) == sec * MsPerSecond;
      assert diff / MsPerSecond == sec;
      LemmaBreakdownBySeconds(diff);
      assert sec / 60 == m && sec % 60 == t.seconds;
      assert m / 60 == h && m % 60 == t.minutes;
      assert h / 24 == t.days && h % 24 == t.hours;
    }
    var b := Breakdown(diff);
    assert ToMillis(b) == diff - diff % MsPerSecond;
  }

  /** Round trip: breaking down the milliseconds of a normalized value gives
      that value back. */
  lemma {:induction false} LemmaBreakdownToMillis(t: TimeLeft)
    requires Normalized(t)
    ensures Breakdown(ToMillis(t)) == t
  {
    LemmaBreakdownUnique(t, ToMillis(t));
  }

  /** The countdown never runs backwards: a later `now` leaves no more time
      on the clock than an earlier one. */
  lemma {:induction false} LemmaCountdownMonotone(target: int, now1: int, now2: int)
    requires now1 <= now2 < target
    ensures CalculateTimeLeft(target, now1).Some? && CalculateTimeLeft(target, now2).Some?
    ensures ToMillis(CalculateTimeLeft(target, now2).value) <= ToMillis(CalculateTimeLeft(target, now1).value)
  {
  }
}

=== FILE: examcard.dfy ===
/** One exam card and the page of cards: the state a card holds when it
    mounts, the state each one-second tick writes, and what the page shows
    for the whole registry at one instant. */
module ExamCard {

  import opened Wrappers
  import opened Duration
  import opened Status
  import opened Display
  import opened Registry

  // ---------------------------------------------------------------------
  // Mounting

  /** The state a card is created with, as written: status `upcoming`
      whatever the clock says, and the countdown to the start. It stays so
      until the first tick, one second later. */
  function MountAsWritten(exam: Exam, now: int): (s: Snapshot)
    ensures s.status == Upcoming
    ensures s.timeLeft.None? <==> exam.start <= now
    ensures s.timeLeft.Some? ==> IsBreakdownOf(s.timeLeft.value, exam.start - now)
  {
    Snapshot(Upcoming, CalculateTimeLeft(exam.start, now))
  }

  /** As written, a card mounted at or after its exam's start shows nothing
      at all until its first tick. */
  lemma LemmaMountBlankAfterStart(exam: Exam, now: int)
    requires exam.start <= now
    ensures OfSnapshot(MountAsWritten(exam, now)) == Blank
  {
  }

  /** The first exam, mounted at its start instant: blank as written, the
      in-progress banner once the state is resolved. */
  lemma LemmaMountAtFirstStart()
    ensures OfSnapshot(MountAsWritten(Exams()[0], Exams()[0].start)) == Blank
    ensures OfSnapshot(Mount(Exams()[0], Exams()[0].start)) == InProgress
  {
  }

  /** The mount state resolved from the clock, as every later tick does:
      never blank, and equal to the as-written state whenever the exam is
      still ahead, which is the only case the as-written state was right. */
  function Mount(exam: Exam, now: int): (s: Snapshot)
    ensures OfSnapshot(s) != Blank
    ensures s.status == Finished <==> now > exam.end
    ensures s.status == Running <==> exam.start <= now <= exam.end
    ensures s.status == Upcoming <==> now < exam.start && now <= exam.end
    ensures s == TickAsWritten(exam, now, now)
    ensures now < exam.start && now <= exam.end ==> s == MountAsWritten(exam, now)
  {
    Resolve(now, exam.start, exam.end)
  }

  // ---------------------------------------------------------------------
  // Ticking

  /** One tick as written: the status comes from the instant `now` read by
      the callback, the countdown from a second reading `later` of the clock
      taken inside the duration calculator. */
  function TickAsWritten(exam: Exam, now: int, later: int): (s: Snapshot)
    ensures s.status == Finished <==> now > exam.end
    ensures s.status == Running <==> exam.start <= now <= exam.end
    ensures s.timeLeft.Some? <==> now < exam.start && now <= exam.end && later < exam.start
    ensures s.timeLeft.Some? ==> IsBreakdownOf(s.timeLeft.value, exam.start - later)
  {
    var status := Resolve(now, exam.start, exam.end).status;
    Snapshot(status, if status == Upcoming then CalculateTimeLeft(exam.start, later) else None)
  }

  /** With both readings equal, the as-written tick is the resolver. */
  lemma LemmaTickSingleReading(exam: Exam, now: int)
    ensures TickAsWritten(exam, now, now) == Resolve(now, exam.start, exam.end)
  {
  }

  /** As written, a tick whose two clock readings fall on either side of the
      start instant leaves the card upcoming with no countdown: blank for a
      second. */
  lemma LemmaTickBlankAcrossStart(exam: Exam, now: int, later: int)
    requires now < exam.start <= later && now <= exam.end
    ensures OfSnapshot(TickAsWritten(exam, now, later)) == Blank
    ensures OfSnapshot(Resolve(now, exam.start, exam.end)).Countdown?
  {
  }

  /** The first exam, read one millisecond before and then at its start. */
  lemma LemmaTickAcrossFirstStart()
    ensures OfSnapshot(TickAsWritten(Exams()[0], Exams()[0].start - 1, Exams()[0].start)) == Blank
  {
  }

  // ---------------------------------------------------------------------
  // The page

  /** What the page shows for every card of a registry at instant `now`,
      in registry order, once every card has ticked with a single clock
      reading: each card shows the state the resolver derives for it. */
  function Board(exams: seq<Exam>, now: int): (r: seq<DisplayKind>)
    ensures |r| == |exams|
    ensures forall i :: 0 <= i < |r| ==> r[i] != Blank
    ensures forall i :: 0 <= i < |r| ==> (r[i] == InProgress <==> exams[i].start <= now <= exams[i].end)
    ensures forall i :: 0 <= i < |r| ==> (r[i] == Completed <==> now > exams[i].end)
    ensures forall i :: 0 <= i < |r| ==> (r[i].Countdown? <==> now < exams[i].start && now <= exams[i].end)
    ensures forall i :: 0 <= i < |r| && r[i].Countdown? ==> IsBreakdownOf(r[i].t, exams[i].start - now)
  {
    seq(|exams|, i requires 0 <= i < |exams| => OfSnapshot(Resolve(now, exams[i].start, exams[i].end)))
  }

  /** On the page built from the registry, at most one card is in progress. */
  lemma LemmaOneInProgress(now: int, i: int, j: int)
    requires 0 <= i < |Exams()| && 0 <= j < |Exams()|
    requires Board(Exams(), now)[i] == InProgress && Board(Exams(), now)[j] == InProgress
    ensures i == j
  {
    LemmaRegistryWellFormed();
    if i < j {
      LemmaAtMostOneRunning(Exams(), now, i, j);
    } else if j < i {
      LemmaAtMostOneRunning(Exams(), now, j, i);
    }
  }
}

=== FILE: jsarith.dfy ===
/** The page computes the four fields with JavaScript number division,
    `%` and `Math.floor`. This module writes those formulas over exact real
    numbers and shows that, for every positive millisecond difference, they
    agree with the integer breakdown of the duration calculator. */
module JsArith {

  import opened Duration

  /** JavaScript's `Math.trunc`: rounds toward zero. */
  function Trunc(y: real): int {
    if y >= 0.0 then y.Floor else -((-y).Floor)
  }

  /** JavaScript's `%` on numbers: the remainder takes the sign of the
      dividend, `x - m * trunc(x / m)`. */
  function JsRem(x: real, m: real): real
    requires m != 0.0
  {
    x - m * Trunc(x / m) as real
  }

  /** The four field expressions of `calculateTimeLeft`, read with exact
      real arithmetic. For a non-negative difference each one equals the
      integer quotient, or quotient modulo the clock range, of the
      difference by the field's unit. */
  function JsDays(difference: int): (r: int)
    ensures difference >= 0 ==> r == difference / MsPerDay
  {
    var field := (difference as real / (1000.0 * 60.0 * 60.0 * 24.0)).Floor;
    if difference >= 0 then LemmaFloorOfQuotient(difference, MsPerDay); field else field
  }

  function JsHours(difference: int): (r: int)
    ensures difference >= 0 ==> r == (difference / MsPerHour) % 24
  {
    var field := JsRem(difference as real / (1000.0 * 60.0 * 60.0), 24.0).Floor;
    if difference >= 0 then LemmaFloorRem(difference, MsPerHour, 24); field else field
  }

  function JsMinutes(difference: int): (r: int)
    ensures difference >= 0 ==> r == (difference / MsPerMinute) % 60
  {
    var field := JsRem(difference as real / 1000.0 / 60.0, 60.0).Floor;
    if difference >= 0 then LemmaFloorRem(difference, MsPerMinute, 60); field else field
  }

  function JsSeconds(difference: int): (r: int)
    ensures difference >= 0 ==> r == (difference / MsPerSecond) % 60
  {
    var field := JsRem(difference as real / 1000.0, 60.0).Floor;
    if difference >= 0 then LemmaFloorRem(difference, MsPerSecond, 60); field else field
  }

  // ---------------------------------------------------------------------
  // Floor and remainder of a non-negative real written as `q + f`

  /** A real quotient of naturals is its integer quotient plus a fraction. */
  lemma LemmaQuotientSplit(d: nat, k: nat)
    requires k > 0
    ensures d as real / k as real == (d / k) as real + (d % k) as real / k as real
    ensures 0.0 <= (d % k) as real / k as real < 1.0
  {
  }

  lemma LemmaFloorOfSplit(q: int, f: real)
    requires 0.0 <= f < 1.0
    ensures (q as real + f).Floor == q
  {
  }

  /** Dividing by a positive real undoes multiplying by it. */
  lemma LemmaDivOfProduct(x: real, y: real, m: real)
    requires m > 0.0 && x == y * m
    ensures x / m == y
  {
  }

  /** A non-negative real below `m` divided by `m` is a fraction. */
  lemma LemmaFraction(x: real, m: real)
    requires 0.0 <= x < m
    ensures 0.0 <= x / m < 1.0
  {
  }

  /** Writing `q = a * m + b` over the reals. */
  lemma LemmaCastQuotient(q: nat, m: nat)
    requires m > 0
    ensures q as real == (q / m) as real * m as real + (q % m) as real
  {
  }

  /** The JavaScript remainder of `q + f` by `m`, floored, is `q % m`. */
  lemma LemmaRemOfSplit(q: nat, f: real, m: nat)
    requires 0.0 <= f < 1.0 && m > 0
    ensures JsRem(q as real + f, m as real).Floor == q % m
  {
    var a, b := q / m, q % m;
    var x, mr := q as real + f, m as real;
    LemmaCastQuotient(q, m);
    var rest := b as real + f;
    var g := rest / mr;
    LemmaFraction(rest, mr);
    LemmaDivOfProduct(rest, g, mr);
    assert x == a as real * mr + g * mr;
    assert x == (a as real + g) * mr;
    LemmaDivOfProduct(x, a as real + g, mr);
    LemmaFloorOfSplit(a, g);
    assert Trunc(x / mr) == a;
    assert JsRem(x, mr) == rest;
    LemmaFloorOfSplit(b, f);
  }

  /** `Math.floor((d / k) % m)` on a natural `d` is `(d / k) % m` on integers. */
  lemma LemmaFloorRem(d: nat, k: nat, m: nat)
    requires k > 0 && m > 0
    ensures JsRem(d as real / k as real, m as real).Floor == (d / k) % m
  {
    LemmaQuotientSplit(d, k);
    LemmaRemOfSplit(d / k, (d % k) as real / k as real, m);
  }

  /** `Math.floor(d / k)` on a natural `d` is `d / k` on integers. */
  lemma LemmaFloorOfQuotient(d: nat, k: nat)
    requires k > 0
    ensures (d as real / k as real).Floor == d / k
  {
    LemmaQuotientSplit(d, k);
    LemmaFloorOfSplit(d / k, (d % k) as real / k as real);
  }

  /** For a positive difference every real-number field equals the
      corresponding field of the integer breakdown. */
  lemma LemmaJsFieldsAgree(difference: int)
    requires difference > 0
    ensures JsDays(difference) == Breakdown(difference).days
    ensures JsHours(difference) == Breakdown(difference).hours
    ensures JsMinutes(difference) == Breakdown(difference).minutes
    ensures JsSeconds(difference) == Breakdown(difference).seconds
  {
  }
}

=== FILE: registry.dfy ===
/** The exam registry (`EXAMS`): a fixed, ordered list of exam records.
    The page writes each start and end as an ISO date-time without a zone,
    which the host reads as local time; here each one becomes an integer
    instant through the proleptic Gregorian calendar, at zone offset zero. */
module Registry {

  import opened Wrappers
  import opened Duration
  import opened Status

  datatype Exam = Exam(code: string, start: int, end: int, title: string, color: string)

  /** Days from 1970-01-01 to the given calendar date (the era-based
      days-from-civil algorithm; `/` is floor division on a positive divisor,
      as the algorithm needs for negative years). */
  function DaysFromCivil(year: int, month: int, day: int): int
    requires 1 <= month <= 12 && 1 <= day <= 31
  {
    var y := if month <= 2 then year - 1 else year;
    var era := y / 400;
    var yoe := y - era * 400;
    var mp := if month > 2 then month - 3 else month + 9;
    var doy := (153 * mp + 2) / 5 + day - 1;
    var doe := yoe * 365 + yoe / 4 - yoe / 100 + doy;
    era * 146097 + doe - 719468
  }

  /** The instant, in milliseconds, of a wall-clock date and time read at
      zone offset zero. */
  function CivilInstant(year: int, month: int, day: int, hour: int, minute: int): int
    requires 1 <= month <= 12 && 1 <= day <= 31
  {
    DaysFromCivil(year, month, day) * MsPerDay + hour * MsPerHour + minute * MsPerMinute
  }

  /** The five records of the page, in the page's order. Every exam is
      titled by its code and lasts three hours. */
  function Exams(): (r: seq<Exam>)
    ensures |r| == 5
    ensures r[0].code == "CSC207" && r[1].code == "ICT200" && r[2].code == "MAT210"
    ensures r[3].code == "ITT320" && r[4].code == "CSC248"
    ensures forall i :: 0 <= i < |r| ==> r[i].title == r[i].code
    ensures forall i :: 0 <= i < |r| ==> r[i].end == r[i].start + 3 * MsPerHour
  {
    [ Exam("CSC207", CivilInstant(2026, 2, 5, 9, 0), CivilInstant(2026, 2, 5, 12, 0), "CSC207", "bg-blue-500"),
      Exam("ICT200", CivilInstant(2026, 2, 7, 14, 15), CivilInstant(2026, 2, 7, 17, 15), "ICT200", "bg-purple-500"),
      Exam("MAT210", CivilInstant(2026, 2, 11, 9, 0), CivilInstant(2026, 2, 11, 12, 0), "MAT210", "bg-emerald-500"),
      Exam("ITT320", CivilInstant(2026, 2, 12, 9, 0), CivilInstant(2026, 2, 12, 12, 0), "ITT320", "bg-orange-500"),
      Exam("CSC248", CivilInstant(2026, 2, 15, 14, 15), CivilInstant(2026, 2, 15, 17, 15), "CSC248", "bg-pink-500") ]
  }

  /** Each window ends strictly after it starts, and the codes, which the
      page uses as list keys, are pairwise distinct. */
  predicate WellFormed(exams: seq<Exam>) {
    && (forall i :: 0 <= i < |exams| ==> exams[i].start < exams[i].end)
    && (forall i, j :: 0 <= i < j < |exams| ==> exams[i].code != exams[j].code)
  }

  /** Each window closes before the next one in the list opens. */
  predicate Chronological(exams: seq<Exam>) {
    forall i :: 0 <= i < |exams| - 1 ==> exams[i].end < exams[i + 1].start
  }

  /** The registry read at another zone offset: every instant moves by the
      same amount. */
  function Shift(exams: seq<Exam>, offset: int): (r: seq<Exam>)
    ensures |r| == |exams|
    ensures forall i :: 0 <= i < |r| ==> r[i] == exams[i].(start := exams[i].start + offset, end := exams[i].end + offset)
  {
    seq(|exams|, i requires 0 <= i < |exams| => exams[i].(start := exams[i].start + offset, end := exams[i].end + offset))
  }

  /** The calendar encoding is anchored at the Unix epoch. */
  lemma LemmaEpoch()
    ensures DaysFromCivil(1970, 1, 1) == 0
    ensures DaysFromCivil(2026, 1, 1) == 20454
  {
  }

  /** The dates of the registry as day numbers since the epoch. */
  lemma LemmaExamDays()
    ensures DaysFromCivil(2026, 2, 3) == 20487
    ensures DaysFromCivil(2026, 2, 5) == 20489
    ensures DaysFromCivil(2026, 2, 7) == 20491
    ensures DaysFromCivil(2026, 2, 11) == 20495
    ensures DaysFromCivil(2026, 2, 12) == 20496
    ensures DaysFromCivil(2026, 2, 15) == 20499
  {
  }

  /** The registry's instants, in milliseconds since the epoch. */
  lemma LemmaExamInstants()
    ensures |Exams()| == 5
    ensures Exams()[0].start == 1770282000000 && Exams()[0].end == 1770292800000
    ensures Exams()[1].start == 1770473700000 && Exams()[1].end == 1770484500000
    ensures Exams()[2].start == 1770800400000 && Exams()[2].end == 1770811200000
    ensures Exams()[3].start == 1770886800000 && Exams()[3].end == 1770897600000
    ensures Exams()[4].start == 1771164900000 && Exams()[4].end == 1771175700000
  {
  }

  /** The registry is well formed and chronological. */
  lemma LemmaRegistryWellFormed()
    ensures WellFormed(Exams()) && Chronological(Exams())
  {
    LemmaExamInstants();
    var e := Exams();
    assert e[0].code == "CSC207" && e[1].code == "ICT200" && e[2].code == "MAT210";
    assert e[3].code == "ITT320" && e[4].code == "CSC248";
  }

  /** Neither property depends on the zone the host reads the dates in. */
  lemma LemmaShiftPreserves(exams: seq<Exam>, offset: int)
    ensures WellFormed(Shift(exams, offset)) <==> WellFormed(exams)
    ensures Chronological(Shift(exams, offset)) <==> Chronological(exams)
  {
  }

  /** In a chronological registry with proper windows, at most one exam is
      running at any instant. */
  lemma LemmaAtMostOneRunning(exams: seq<Exam>, now: int, i: int, j: int)
    requires WellFormed(exams) && Chronological(exams)
    requires 0 <= i < j < |exams|
    requires Resolve(now, exams[i].start, exams[i].end).status == Running
    ensures Resolve(now, exams[j].start, exams[j].end).status == Upcoming
  {
    LemmaEndsBeforeLaterStart(exams, i, j);
  }

  /** In a chronological registry with proper windows, every window closes
      before any later one opens. */
  lemma {:induction false} LemmaEndsBeforeLaterStart(exams: seq<Exam>, i: int, j: int)
    requires WellFormed(exams) && Chronological(exams)
    requires 0 <= i < j < |exams|
    ensures exams[i].end < exams[j].start
    decreases j - i
  {
    if j > i + 1 {
      LemmaEndsBeforeLaterStart(exams, i, j - 1);
      assert exams[j - 1].start < exams[j - 1].end;
      assert exams[j - 1].end < exams[j].start;
    }
  }

  /** Two days before the first exam's start the countdown reads exactly
      two days. */
  lemma LemmaTwoDaysBefore()
    ensures CalculateTimeLeft(Exams()[0].start, CivilInstant(2026, 2, 3, 9, 0)) == Some(TimeLeft(2, 0, 0, 0))
  {
    LemmaExamInstants();
    assert CivilInstant(2026, 2, 3, 9, 0) == 1770109200000;
    LemmaBreakdownToMillis(TimeLeft(2, 0, 0, 0));
  }
}

=== FILE: status.dfy ===
/** The status resolver run by each exam card once per second: from the
    current instant and the exam's start and end instants it derives one of
    three states, and the remaining time only while the exam is upcoming. */
module Status {

  import opened Wrappers
  import opened Duration

  datatype Status = Upcoming | Running | Finished

  /** What one tick writes: the card's `status` and `timeLeft` state. */
  datatype Snapshot = Snapshot(status: Status, timeLeft: Option<TimeLeft>)

  /** Position of a status in the forward order upcoming, running, finished. */
  function Rank(s: Status): nat {
    match s
    case Upcoming => 0
    case Running => 1
    case Finished => 2
  }

  /** The body of the interval callback, with both clock reads taken as the
      same `now`. The branches are tried in the page's order: past the end
      first, then inside the window, otherwise upcoming. */
  function Resolve(now: int, start: int, end: int): (s: Snapshot)
    ensures s.status == Finished <==> now > end
    ensures s.status == Running <==> start <= now <= end
    ensures s.status == Upcoming <==> now < start && now <= end
    ensures s.timeLeft.Some? <==> s.status == Upcoming
    ensures s.timeLeft.Some? ==> IsBreakdownOf(s.timeLeft.value, start - now)
  {
    if now > end then
      Snapshot(Finished, None)
    else if now >= start && now <= end then
      Snapshot(Running, None)
    else
      Snapshot(Upcoming, CalculateTimeLeft(start, now))
  }

  /** Forward-only: whatever the two instants, a later `now` never yields an
      earlier status. No `start <= end` is needed: the conditions `now > end`
      and `now >= start || now > end` each stay true once they become true,
      and the rank counts how many of them hold. */
  lemma LemmaResolveMonotone(now1: int, now2: int, start: int, end: int)
    requires now1 <= now2
    ensures Rank(Resolve(now1, start, end).status) <= Rank(Resolve(now2, start, end).status)
  {
  }

  /** For a well-formed window, upcoming means exactly "before the start". */
  lemma LemmaUpcomingBeforeStart(now: int, start: int, end: int)
    requires start <= end
    ensures Resolve(now, start, end).status == Upcoming <==> now < start
  {
  }

  /** The boundary instants: the start and the end instant are both inside
      the window, one millisecond past the end is finished. */
  lemma LemmaBoundaries(start: int, end: int)
    requires start <= end
    ensures Resolve(start, start, end).status == Running
    ensures Resolve(end, start, end).status == Running
    ensures Resolve(end + 1, start, end) == Snapshot(Finished, None)
  {
  }

  /** While upcoming, the countdown is taken against the start instant and
      never against the end instant: it is the unique breakdown of
      `start - now`, so it changes when the start moves and not when the
      end moves. */
  lemma LemmaCountsToStart(now: int, start: int, end: int, end': int)
    requires now < start && now <= end && now <= end'
    ensures Resolve(now, start, end).timeLeft == Resolve(now, start, end').timeLeft
    ensures Resolve(now, start, end).timeLeft == Some(Breakdown(start - now))
  {
  }

  /** A past start gives a running or finished card at once, never an
      upcoming one. */
  lemma LemmaPastStartNeverUpcoming(now: int, start: int, end: int)
    requires start <= now
    ensures Resolve(now, start, end).status != Upcoming
    ensures Resolve(now, start, end).timeLeft == None
  {
  }
}

=== FILE: wrappers.dfy ===
/** The absent-or-present value that stands for a JavaScript value which is
    either `null` or an object. */
module Wrappers {

  datatype Option<+T> = None | Some(value: T)
}
